=== FILE: README.md ===
# iVision overlay geometry in Dafny

iVision is a desktop prototype of an augmented-reality heads-up display. It
draws a pair of glasses over a background photo. The lenses carry HUD text
(clock, battery, navigation hint). There are two demo modes: a navigation card
between the lenses, and a car-scan guide ring that steps through fixed targets.
A capture writes the frame, an edge-highlighted copy and a JSON sidecar.

This project models the integer pixel layout behind that display, and the small
state machine that switches modes and places their overlays:

- `numeric.dfy` (`Numeric`): Python's truncating `int()`, ratios as integer
  hundredths (`Scale`), and decimal printing of integers with its inverse.
- `shapes.dfy` (`Shapes`): points, closed boxes, canvas items.
- `overlay.dfy` (`Overlay`, `OverlayProperties`): `GlassesOverlay.generate`
  and its `_draw_*` helpers. They produce the lens centres and boxes, the
  bridge, the arms, the crown (knob) box, the frame and the bottom bar. The
  draw calls come as an ordered list of passes. `OverlayProperties` proves the
  layout's symmetry, bridge gap, crown placement, frame margin, bar placement,
  shadow offsets, pass order and growth with lens width.
- `hud.dfy` (`Hud`): `HUDManager.position_items`.
- `carscan.dfy` (`CarScan`), `navigation.dfy` (`Navigation`): the two modes, as
  pure transitions over a guide step and a list of drawn canvas items.
- `app.dfy` (`App`): `iVisionPrototypeApp`. It covers the app's own copy of the
  lens geometry, the crown hit test, menu/navigation/car-scan switching, the
  capture metadata and file names, and the refresh after a capture.

Abstraction of floating point: every ratio in the code is a two-decimal
literal or a slider value stepping by 0.01. The model keeps it as `k`
hundredths and reads `int(n * r)` as `Scale(n, k)`, the integer `n * k / 100`
truncated toward zero. In binary floating point the two can differ by one on
some inputs. For example, `int(180 * 0.35)` is 62 while `180 * 35 / 100` is 63.
The model follows the exact decimal reading. Python's `x // 2` by a positive
constant is floor division, which is Dafny's `/` for a positive divisor.
`int((a + b) / 2)` truncates toward zero, which is `Numeric.Trunc`.

Facts about the code that shape the model:

- The lens centre line is `int(h * 0.53)`, a truncation. On the 1000 x 520
  canvas the lens tops are at y = 130.
- The tint is drawn after the frame and before the rims.
- Only `next_step` advances the car-scan guide, and nothing in the app calls
  it: the app uses the car-scan mode only through `activate`
  (`i_vision_prototype_app.py:202`, `:258`), `deactivate` (`:208`, and the
  loop over all modes in `show_menu` at `:191-192`), the table lookup at
  `:227`, `guide_step` (`:228`) and `get_current_target_position` (`:229`).
  The running app therefore always has guide step 0. A capture in car-scan
  mode ends with `refresh_canvas_view`, which re-activates the mode and puts
  the guide back at step 0 from any step (`App.CaptureRestartsGuidance`); a
  non-zero step there is reachable only through `CarScan.NextStep`, not
  through the `App` operations.
- The settings panel opens and closes three ways: a click inside the crown box
  (`App.OnCanvasClick`), the "Crown" button, which toggles it with no hit
  test (`App.PressCrownButton`), and the panel's own "Close" button
  (settings_panel.py:38), which calls the same toggle and so acts as
  `App.PressCrownButton` on an open panel.

Idempotence and determinism of the geometry hold by construction: every
operation is a Dafny function of its inputs.

## Model

| member | source | states |
|---|---|---|
| Overlay.ComputeLayout | ui_components.py:21-26 | No contract; its properties are stated by `Overlay.LayoutCentred`. |
| Overlay.LayoutCentred | ui_components.py:21-26 | The effective IPD is the larger of the requested IPD and lens width plus minimum bridge. The lens centres mirror each other about `w // 2`, lie `ipd_eff` or `ipd_eff - 1` apart, and both sit on the centre line. |
| Overlay.LensBox | ui_components.py:28-30 | No contract; its size and centre are stated by `Overlay.LensBoxSize`. |
| Overlay.LensBoxSize | ui_components.py:28-30 | A lens box is centred on its lens centre. It is `lw` or `lw - 1` wide, exactly `lw - 1` when `lw` is odd, and likewise `lh` or `lh - 1` tall. |
| Overlay.ShadowOps | ui_components.py:50-56 | The shadow pass makes two calls per offset, all on the shadow layer. |
| Overlay.ShadowRounds | ui_components.py:50-56 | With the offsets 2, 4, 6 of `range(2, 8, 2)`, round `k` outlines the left and then the right lens box moved diagonally by `2k + 2`. |
| Overlay.BridgeOp | ui_components.py:64-75 | The call is on the bridge pass; its two branches are stated by `OverlayProperties.BridgeSpansGap` and `OverlayProperties.LineFallbackReachable`. |
| Overlay.ArmOps | ui_components.py:77-98 | No contract; its four calls (both arms, the crown disc on the knob box, and the inner ring 6 px inside the crown radius) are stated by `Overlay.ComponentOps` as its calls 1-4. |
| Overlay.LeftArmBox | ui_components.py:79-83 | No contract; used in `Overlay.ComponentOps`. |
| Overlay.RightArmBox | ui_components.py:86-87 | No contract; its outer end is stated by `OverlayProperties.KnobOnRightArm`. |
| Overlay.KnobBox | ui_components.py:90-100 | No contract; stated by `OverlayProperties.KnobOnRightArm` and `App.DefaultKnob`. |
| Overlay.FrameBox | ui_components.py:102-110 | No contract; stated by `OverlayProperties.FrameEnclosesLenses`. |
| Overlay.LensOps | ui_components.py:112-118 | No contract (it also models `_draw_rims`, ui_components.py:58-62); stated by `OverlayProperties.RimsOnLenses`. |
| Overlay.BarBox | ui_components.py:120-126 | No contract; stated by `OverlayProperties.BottomBarPlacement`. |
| Overlay.Draw | ui_components.py:32-48 | No contract; stated by `OverlayProperties.DrawLayers`, `PassesInOrder`, `ShadowsTrailLenses` and `RimsOnLenses`. |
| Overlay.Generate | ui_components.py:13-48 | No contract; it is `Draw` of `ComputeLayout`, stated by the lemmas named for those two. |
| Overlay.ComponentOps | ui_components.py:32-46 | After the shadows come eleven calls, one pass after another: the `_draw_bridge` call, the left and right arm rounded boxes with radius `arm_h // 2`, the crown disc on the knob box and its inner ring, the frame rounded box with radius 40, the tint and then the rim ellipses on the lens boxes, and the bottom bar. |
| OverlayProperties.LensesMirrored | ui_components.py:21-30 | The two lens boxes are mirror images about `w // 2`, have equal size `2*(lw//2)` by `2*(lh//2)`, and are centred on `int(h*0.53)`. |
| OverlayProperties.BridgeSpansGap | ui_components.py:64-75 | The gap between the lenses is at least `bridge_min - 1`. For `bridge_min >= 2` the bridge is always the bar spanning exactly that gap, with top `cy - lh//8` and height `max(4, bridge_min//2)`; the line fallback is unreachable. |
| OverlayProperties.LineFallbackReachable | ui_components.py:21-75 | Whenever the IPD is at most the lens width plus a minimum bridge of 0, or of 1 with an even lens width, the lenses touch (zero gap) and the line branch is taken. With `OverlayProperties.BridgeSpansGap` this says when the fallback is drawn. |
| OverlayProperties.KnobOnRightArm | ui_components.py:77-100 | The returned crown box is a square of side `2*crown_r`, with `crown_r = int(lh*0.18)//2 + 8`. It is centred at (`int(w*0.97) - crown_r - 6`, `cy`), its right edge is 6 px inside the right arm's end, and it reaches 8 px beyond the arm above and below. |
| OverlayProperties.FrameEnclosesLenses | ui_components.py:102-110 | The frame encloses both lens boxes with exactly a 20 px margin on the outer sides, the top and the bottom. |
| OverlayProperties.BottomBarPlacement | ui_components.py:120-126 | The bottom bar is centred on the canvas to within half a pixel and is `int(h*ratio) + 8` tall. Its top is on the canvas for ratios up to 0.90, and its bottom is on the canvas for heights of 80 px or more. |
| OverlayProperties.ShadowsTrailLenses | ui_components.py:50-56 | The first six calls outline the left and right lens boxes shifted diagonally by 2, then 4, then 6 px. |
| OverlayProperties.FollowingPassOrder | ui_components.py:32-48 | Calls that follow the fixed pass sequence are in pass order and cover every pass. |
| OverlayProperties.ShadowsThenComponents | ui_components.py:33-46 | Six shadow calls followed by eleven calls on the bridge-to-bottom-bar passes in order make up exactly the fixed pass sequence. |
| OverlayProperties.DrawLayers | ui_components.py:32-48 | The calls of `generate` follow the fixed pass sequence: 6 shadows, bridge, 2 arms, 2 crown, frame, 2 tint, 2 rims, bottom bar. |
| OverlayProperties.PassesInOrder | ui_components.py:32-48 | The pass rank never decreases along the call list, and every pass draws something. The crown disc drawn is the knob box returned. |
| OverlayProperties.RimsOnLenses | ui_components.py:40-44 | The tint ellipses and then the rim ellipses are drawn on the left and right lens boxes. |
| OverlayProperties.SpanGrowsWithLensWidth | ui_components.py:21-30 | On a canvas at least 200 px wide, a larger lens-width ratio gives a strictly wider span from left lens edge to right lens edge. |
| Numeric.ScaleFloor | ui_components.py:21-22 | `Scale(n, k)` is the largest integer not above `n * k / 100`, for non-negative `n` and `k`. |
| Numeric.IntToDecimal | modes/carscan_mode.py:42 | `str` of an integer: at least one character, a digit first exactly for non-negative values; stated further by `Numeric.DecimalRoundTrip` and `Numeric.DecimalInjective`. |
| Numeric.DecimalRoundTrip | modes/carscan_mode.py:42 | Reading back the decimal text of an integer gives the integer. |
| Numeric.DecimalInjective | modes/carscan_mode.py:42 | Two integers have the same decimal text iff they are equal. |
| Hud.PositionItems | ui_components.py:148-166 | No contract; stated by `Hud.AnchorsInsideLenses` and `App.HudOnLensesAfterSliderChange`. |
| Hud.AnchorsInsideLenses | ui_components.py:148-166 | For well-formed lens boxes, the clock and battery anchors lie in the left lens on one row, with the clock not right of the battery. The navigation anchor lies in the right lens. |
| CarScan.TargetPoint | modes/carscan_mode.py:27-36 | No contract; stated by `CarScan.TargetRoundTrip` and `CarScan.LabelOutrunsTargets`. |
| CarScan.Label | modes/carscan_mode.py:42 | No contract; stated by `CarScan.LabelOutrunsTargets`. |
| CarScan.GuidanceItems | modes/carscan_mode.py:38-45 | No contract; its three items are stated by `CarScan.ShowGuidanceOverlay`. |
| CarScan.ShowGuidanceOverlay | modes/carscan_mode.py:23-45 | Earlier items are replaced by exactly three: the 80 x 80 ring around the step's target, the arrow triangle with its tip 70 px above the target, and the label "Target {step+1}" 60 px below it. The guide step is untouched. |
| CarScan.Activate | modes/carscan_mode.py:13-17 | Activation resets the guide step to 0 and draws the ring around the first table target. |
| CarScan.Deactivate | modes/carscan_mode.py:19-21 | Deactivation empties the items and keeps the guide step. |
| CarScan.NextStep | modes/carscan_mode.py:47-50 | The guide step rises by exactly one and three items are drawn for it. |
| CarScan.CurrentTargetPosition | modes/carscan_mode.py:52-59 | The target position is absent exactly when no item is drawn. |
| CarScan.TargetRoundTrip | modes/carscan_mode.py:33-59 | The position read back from the ring's box is the target point the ring was drawn around. |
| CarScan.LabelOutrunsTargets | modes/carscan_mode.py:27-42 | Targets repeat with period eight: steps eight apart share a target, but never a label. |
| CarScan.NextStepAdvances | modes/carscan_mode.py:13-59 | After `next_step` the position read back is the next step's target. After `activate` it is the first target. |
| Navigation.ArrowFor | modes/navigation_mode.py:30 | "right" gives the right arrow and "left" the left arrow, each exactly for that direction. Every other direction gives the up arrow. |
| Navigation.DrawNavigationOverlay | modes/navigation_mode.py:18-42 | Four items are appended after the earlier ones: the 320 x 140 card around the card centre, the direction's arrow 80 px left of that centre, then the distance and the ETA 40 px right of it, 18 px above and below. The HUD hint becomes `eta + " " + arrow`. |
| Navigation.CardCentre | modes/navigation_mode.py:21-22 | No contract; the middle of the lens gap at the lens mid-height, pinned to (`w // 2`, `int(h*0.53)`) by `App.NavigationCardCentred`. |
| Navigation.Activate | modes/navigation_mode.py:9-39 | After activation exactly four items are drawn: the 320 x 140 card around the card centre, the right arrow 80 px left of that centre, "600 ft" and "23 mins" 40 px right of it. The HUD hint is "23 mins" followed by the right arrow. |
| Navigation.Deactivate | modes/navigation_mode.py:14-16 | Deactivation leaves no items. |
| App.HasMode | i_vision_prototype_app.py:207 | No contract; the test `name in self.modes` (also at line 257), true of "navigation" and "carscan" only, used by `App.SwitchMode` and `App.RefreshCanvasView`. |
| App.OverlayParams | i_vision_prototype_app.py:129-133 | No contract; `update_overlay` passes only the IPD and lens ratios, so `generate`'s default bridge minimum and bar height apply. Used by `App.UpdateOverlay` and `App.GeometryIsLayout`. |
| App.GetLensGeometry | i_vision_prototype_app.py:145-161 | No contract; stated by `App.GeometryIsLayout`, `App.DefaultLensBoxes` and `App.SliderRangeFitsCanvas`. |
| App.GeometryIsLayout | i_vision_prototype_app.py:145-161 | The app's copy of the lens computation yields exactly the overlay's two lens boxes for the same canvas and parameters. |
| App.GeometryAgreesWithOverlay | i_vision_prototype_app.py:145-161 | The app's copy of the lens computation yields exactly the overlay's two lens boxes, which are the boxes its rims are drawn on. |
| App.DefaultLensBoxes | i_vision_prototype_app.py:36-56 | On the 1000 x 520 canvas with IPD 240 and ratios 0.30/0.56, the lens boxes are [191,130,491,420] and [509,130,809,420]. |
| App.DefaultKnob | i_vision_prototype_app.py:36-56 | At start-up the knob box is (896,241,964,309), the app is in the menu and the panel is closed. |
| App.NavigationCardCentred | modes/navigation_mode.py:18-22 | Whatever the lens parameters, the card centre is (`w // 2`, `int(h*0.53)`): the middle of the lens gap, at lens mid-height. |
| App.SliderRangeFitsCanvas | settings_panel.py:42-67 | At every slider position on the 1000 x 520 canvas, both lenses and the knob lie on the canvas and the lenses do not touch. The knob lies wholly right of the right lens. |
| App.HudOnLensesAtStartAndRefresh | i_vision_prototype_app.py:251-254 | At start-up (line 59 places the HUD the same way), and after any refresh (and so after any capture, which ends with one) on the 1000 x 520 canvas with in-range parameters, the clock and battery anchors lie in the left lens on one row, and the navigation anchor lies in the right lens. |
| App.HudOnLensesAfterSliderChange | i_vision_prototype_app.py:136-161 | After a slider change on the 1000 x 520 canvas, the clock and battery anchors lie in the left lens drawn, on one row, and the navigation anchor lies in the right lens. |
| App.Init | i_vision_prototype_app.py:36-59 | The app starts on the 1000 x 520 canvas in the menu with the panel closed, the default lens parameters, both modes fresh, the HUD hint "23 mins →", and the knob box of the default overlay. The HUD anchors are `position_items` of `get_lens_geometry`'s boxes for the defaults. |
| App.UpdateOverlay | i_vision_prototype_app.py:127-134 | The knob becomes exactly the crown box `generate` returns for the current canvas and parameters, and nothing else changes. |
| App.PositionHud | i_vision_prototype_app.py:143 | The HUD anchors become `position_items` of the app's own two lens boxes, and nothing else changes. |
| App.UpdateLensParams | i_vision_prototype_app.py:127-143 | New slider values replace the parameters, and the knob becomes the box the overlay generated for them. Only the parameters, the knob and the HUD anchors change; the mode, both modes' items, the HUD hint, the canvas and the panel are kept. The HUD anchors are re-placed on the new parameters' lens boxes. |
| App.OnCanvasClick | i_vision_prototype_app.py:174-179 | A click toggles the settings panel iff a knob box is known and the point lies in it, borders included. Nothing else changes. |
| App.PressCrownButton | i_vision_prototype_app.py:125 | The "Crown" button toggles the settings panel without any hit test, and nothing else changes. |
| App.SwitchMode | i_vision_prototype_app.py:204-211 | The previous mode is deactivated only if it has an entry in the mode table ("menu" has none). The new name is recorded, and nothing else in the table or state changes. |
| App.ShowMenu | i_vision_prototype_app.py:187-192 | After returning to the menu both modes' item lists are empty, and the guide step is kept. |
| App.OpenNavigation | i_vision_prototype_app.py:194-197 | The mode becomes "navigation" with four items drawn, led by the card centred on (`w // 2`, `int(h*0.53)`), and the HUD hint set. Car-scan items are cleared only if car-scan was current. Parameters, knob, HUD anchors, canvas and panel are kept. |
| App.OpenCarScan | i_vision_prototype_app.py:199-202 | The mode becomes "carscan" with guide step 0 and the ring on the first target. Navigation items are cleared only if navigation was current. Parameters, knob, HUD, canvas and panel are kept. |
| App.ActivateNavigation | i_vision_prototype_app.py:194-197 | Activating navigation draws four items led by the card centred on (`w // 2`, `int(h*0.53)`) and sets the "23 mins →" hint. Nothing but the navigation items and the hint changes. |
| App.RefreshCanvasView | i_vision_prototype_app.py:251-258 | The refresh keeps the mode, parameters, knob, canvas and panel. It re-activates car-scan (guide back to step 0) or navigation (four items, the card centred on (`w // 2`, `int(h*0.53)`)) when that mode is current. Otherwise navigation and its hint are left alone, and car-scan is left alone unless it is current. The HUD anchors are `position_items` of `get_lens_geometry`'s boxes for the current canvas and parameters. |
| App.CaptureMetadata | i_vision_prototype_app.py:219-231 | The record always holds the timestamp, mode and lens parameters. `guide_step` is present iff the mode is "carscan". `guide_center` is present iff a ring is also drawn, and it equals the ring's centre. |
| App.CaptureFileNames | i_vision_prototype_app.py:238-245 | The image, edge-detection and JSON names of one capture are pairwise distinct. |
| App.CaptureNamesIdentifyTimestamp | i_vision_prototype_app.py:238-245 | Each of the three names determines its timestamp, so captures in different seconds never share a name. |
| App.CaptureFrame | i_vision_prototype_app.py:213-249 | A capture yields the metadata and names. The 60 px highlight ring is present exactly when a guide centre is recorded and is centred on it. The state afterwards is the refreshed view. |
| App.OperationsKeepRingFirst | modes/carscan_mode.py:52-57 | Slider changes, clicks, mode switches and returning to the menu keep the car-scan items empty or led by the ring, which is what the target lookup reads. |
| App.OpeningAndCaptureKeepRingFirst | modes/carscan_mode.py:52-57 | Opening either mode and capturing a frame also keep the car-scan items empty or led by the ring. |
| App.CaptureRestartsGuidance | i_vision_prototype_app.py:251-258 | A car-scan capture records the current step and ring centre. The refresh then restarts the guide at step 0 on the first target. |
| App.CaptureAfterOpenCarScan | i_vision_prototype_app.py:199-231 | A capture right after opening car-scan records mode "carscan", step 0 and the first target as guide centre. |

## Left out

- Rasterisation: Pillow's ellipse, rectangle and rounded-rectangle pixels, RGBA colours, stroke widths and alpha compositing in `_redraw_base`. Only the coordinates and the order of the draw calls are modelled.
- Exact binary floating point of `int(n * r)`: it is read as exact hundredths, as described above.
- Edge detection and background loading (`image_processing.py`): foreign OpenCV and Pillow calls, float blending, and file I/O.
- Clock and HUD text refresh (`create_items`, `update_time`, `_update_hud_timer`): these depend on the wall clock and the Tk timer.
- Capture side effects: composing and saving images, `json.dump`, the message box and the capture directory. `int(time.time())` becomes the parameter `ts`.
- The status label text `Mode: {mode_name.title()}` set by `_switch_mode`: widget text that needs Python's title casing.
- The settings panel's widgets and the `winfo_exists()` check: the panel is a single open/closed flag, and only its slider ranges are used.
- Canvas item ids, `tag_raise` and `lift`: items are kept by their coordinates and text, and stacking order on the Tk canvas is not modelled.
- Toolkit selection and launch (`main.py`) and the archived prototype under `archive_sandbox/`, which has no geometry.
- CarScan.CurrentTargetPosition: requires the items to be empty or led by the ring. The Python reads `coords` of whatever item comes first: a polygon or rectangle would give the midpoint of its first two coordinate pairs, and a text item (two coordinates) raises IndexError at `coords[2]`. No operation builds a list led by anything but the ring (`App.OperationsKeepRingFirst`).
- App.Init: models the start-up `__init__` intends, with a lens-height default of 0.56. As written, `i_vision_prototype_app.py:44` reads `DEFAULT_LENS_H_RATIO`, which `config.py` does not define: it defines `DEFAULT_LENTS_H_RATIO` (`config.py:16`), so `from config import *` leaves the name unbound and `__init__` stops with a NameError before the mode, the knob box or the mode table exist. `App.DefaultKnob` describes the same intended start-up.
- App.CaptureFrame: write failures are not modelled. `capture_frame` has no exception handling, so a failing `save` or `json.dump` (`i_vision_prototype_app.py:238-246`) raises before the `refresh_canvas_view` at `:249`, and the guide is then not reset; the model always ends with the refreshed view.

=== FILE: app.dfy ===
/**
 * `iVisionPrototypeApp`: the lens parameters, the crown hit test, switching
 * between the menu and the two modes, and the record a frame capture writes.
 * Widgets, the clock timer and the files themselves are not modelled; the
 * settings panel is reduced to whether it is open.
 */
module App {
  import opened Wrappers
  import opened Numeric
  import opened Shapes
  import Overlay
  import OverlayProperties
  import Hud
  import CarScan
  import Navigation

  /** `CANVAS_WIDTH`, `CANVAS_HEIGHT` and the lens defaults; ratios in hundredths. */
  const CanvasWidth: int := 1000
  const CanvasHeight: int := 520
  const DefaultIpd: int := 240
  const DefaultLensW: int := 30
  const DefaultLensH: int := 56

  /** The ranges of the settings panel's three sliders; the ratio sliders step by one hundredth. */
  const IpdMin: int := 160
  const IpdMax: int := 320
  const LensWMin: int := 22
  const LensWMax: int := 36
  const LensHMin: int := 45
  const LensHMax: int := 65

  const MenuName: string := "menu"
  const NavigationName: string := "navigation"
  const CarScanName: string := "carscan"

  /** `lens_params`: the three values the sliders set. */
  datatype LensParams = LensParams(ipd: int, lensW: int, lensH: int)

  const DefaultParams: LensParams := LensParams(DefaultIpd, DefaultLensW, DefaultLensH)

  predicate InSliderRange(p: LensParams)
  {
    IpdMin <= p.ipd <= IpdMax && LensWMin <= p.lensW <= LensWMax && LensHMin <= p.lensH <= LensHMax
  }

  /** The application's state; `navigation` and `carscan` make up the `modes` table. */
  datatype AppState = AppState(
    w: int, h: int,
    params: LensParams,
    mode: string,
    knob: Option<Box>,
    hud: Hud.Anchors,
    hudNavigation: string,
    navigation: Navigation.NavigationMode,
    carscan: CarScan.CarScanMode,
    panelOpen: bool)

  /** `name in self.modes`: only the two modes have an entry; "menu" has none. */
  predicate HasMode(name: string)
  {
    name == NavigationName || name == CarScanName
  }

  /** `update_overlay` passes no bridge minimum or bar height, so `generate`'s defaults apply. */
  function OverlayParams(p: LensParams): Overlay.Params
  {
    Overlay.Params(p.ipd, p.lensW, p.lensH, Overlay.DefaultBridgeMin, Overlay.DefaultLowerBarRatio)
  }

  /** `get_lens_geometry`: the app's own copy of the lens-box computation. */
  function GetLensGeometry(w: int, h: int, p: LensParams): (Box, Box)
  {
    var cx := w / 2;
    var cy := Scale(h, 53);
    var lw := Scale(w, p.lensW);
    var lh := Scale(h, p.lensH);
    var ipdEff := Overlay.Max(p.ipd, lw + Overlay.DefaultBridgeMin);
    var lx, rx := cx - ipdEff / 2, cx + ipdEff / 2;
    (Box(lx - lw / 2, cy - lh / 2, lx + lw / 2, cy + lh / 2),
     Box(rx - lw / 2, cy - lh / 2, rx + lw / 2, cy + lh / 2))
  }

  /** `update_overlay`: regenerates the overlay and keeps the crown box it returns. */
  function UpdateOverlay(s: AppState): (r: AppState)
    ensures r == s.(knob := r.knob)
    ensures r.knob == Some(Overlay.KnobBox(Overlay.ComputeLayout(s.w, s.h, OverlayParams(s.params))))
  {
    s.(knob := Some(Overlay.Generate(s.w, s.h, OverlayParams(s.params)).knob))
  }

  /** `hud_manager.position_items(self.get_lens_geometry())`. */
  function PositionHud(s: AppState): (r: AppState)
    ensures r == s.(hud := r.hud)
    ensures var (lx, rx) := GetLensGeometry(s.w, s.h, s.params); r.hud == Hud.PositionItems(lx, rx)
  {
    var (lx, rx) := GetLensGeometry(s.w, s.h, s.params);
    s.(hud := Hud.PositionItems(lx, rx))
  }

  /** The state after `__init__`: default parameters, menu mode, overlay drawn, HUD placed. */
  function Init(): (r: AppState)
    ensures r.w == CanvasWidth && r.h == CanvasHeight
    ensures r.mode == MenuName && !r.panelOpen && r.params == DefaultParams
    ensures r.hudNavigation == "23 mins " + Navigation.RightArrow
    ensures r.navigation == Navigation.Fresh && r.carscan == CarScan.Fresh
    ensures r.knob == Some(Overlay.KnobBox(Overlay.ComputeLayout(CanvasWidth, CanvasHeight, OverlayParams(DefaultParams))))
    ensures var (lx, rx) := GetLensGeometry(r.w, r.h, r.params); r.hud == Hud.PositionItems(lx, rx)
  {
    var s := AppState(CanvasWidth, CanvasHeight, DefaultParams, MenuName, None,
                      Hud.Anchors(Point(0, 0), Point(0, 0), Point(0, 0)),
                      "23 mins " + Navigation.RightArrow,
                      Navigation.Fresh, CarScan.Fresh, false);
    PositionHud(UpdateOverlay(s))
  }

  /** `update_lens_params`: takes the slider values, regenerates the overlay and re-places the HUD. */
  function UpdateLensParams(s: AppState, ipd: int, lensW: int, lensH: int): (r: AppState)
    ensures r.params == LensParams(ipd, lensW, lensH)
    ensures r.knob == Some(Overlay.KnobBox(Overlay.ComputeLayout(s.w, s.h, OverlayParams(r.params))))
    ensures r == s.(params := r.params, knob := r.knob, hud := r.hud)
    ensures var (lx, rx) := GetLensGeometry(s.w, s.h, r.params); r.hud == Hud.PositionItems(lx, rx)
  {
    PositionHud(UpdateOverlay(s.(params := LensParams(ipd, lensW, lensH))))
  }

  /**
   * `_on_canvas_click`: a click toggles the settings panel exactly when a
   * crown box is known and the click lies in it, borders included; nothing
   * else changes.
   */
  function OnCanvasClick(s: AppState, x: int, y: int): (r: AppState)
    ensures r.panelOpen != s.panelOpen <==> s.knob.Some? && s.knob.value.Contains(Point(x, y))
    ensures r == s.(panelOpen := r.panelOpen)
  {
    match s.knob
    case Some(k) =>
      if k.x1 <= x <= k.x2 && k.y1 <= y <= k.y2 then s.(panelOpen := !s.panelOpen) else s
    case None => s
  }

  /** The "Crown" button: `settings_panel.toggle` with no hit test; nothing else changes. */
  function PressCrownButton(s: AppState): (r: AppState)
    ensures r.panelOpen != s.panelOpen
    ensures r == s.(panelOpen := r.panelOpen)
  {
    s.(panelOpen := !s.panelOpen)
  }

  /** `_switch_mode`: deactivates the current mode if it has an entry, then records the new name. */
  function SwitchMode(s: AppState, name: string): (r: AppState)
    ensures r.mode == name
    ensures s.mode == NavigationName ==> r.navigation.items == [] && r.carscan == s.carscan
    ensures s.mode == CarScanName ==>
      r.carscan.items == [] && r.carscan.guideStep == s.carscan.guideStep && r.navigation == s.navigation
    ensures !HasMode(s.mode) ==> r.navigation == s.navigation && r.carscan == s.carscan
    ensures r == s.(mode := name, navigation := r.navigation, carscan := r.carscan)
  {
    var s1 :=
      if s.mode == NavigationName then s.(navigation := Navigation.Deactivate(s.navigation))
      else if s.mode == CarScanName then s.(carscan := CarScan.Deactivate(s.carscan))
      else s;
    s1.(mode := name)
  }

  /** `show_menu`: switches to the menu and clears both modes' items. */
  function ShowMenu(s: AppState): (r: AppState)
    ensures r.mode == MenuName
    ensures r.navigation.items == [] && r.carscan.items == []
    ensures r.carscan.guideStep == s.carscan.guideStep
    ensures r == s.(mode := MenuName, navigation := r.navigation, carscan := r.carscan)
  {
    var s1 := SwitchMode(s, MenuName);
    s1.(navigation := Navigation.Deactivate(s1.navigation), carscan := CarScan.Deactivate(s1.carscan))
  }

  /**
   * The first navigation item is the 320 x 140 card centred on the canvas
   * column `w // 2` and on the lens centre line.
   */
  predicate CardOnCentreLine(n: Navigation.NavigationMode, w: int, h: int)
  {
    && |n.items| > 0
    && n.items[0] == Rectangle(BoxAround(Point(w / 2, Scale(h, 53)),
                                         Navigation.CardWidth / 2, Navigation.CardHeight / 2))
  }

  /** `modes['navigation'].activate()`, which also rewrites the HUD's navigation text. */
  function ActivateNavigation(s: AppState): (r: AppState)
    ensures r == s.(navigation := r.navigation, hudNavigation := r.hudNavigation)
    ensures |r.navigation.items| == 4 && CardOnCentreLine(r.navigation, s.w, s.h)
    ensures r.hudNavigation == "23 mins " + Navigation.RightArrow
  {
    NavigationCardCentred(s.w, s.h, s.params);
    var (lx, rx) := GetLensGeometry(s.w, s.h, s.params);
    var d := Navigation.Activate(s.navigation, lx, rx);
    s.(navigation := d.mode, hudNavigation := d.hudText)
  }

  /** `open_navigation`. */
  function OpenNavigation(s: AppState): (r: AppState)
    ensures r.mode == NavigationName
    ensures |r.navigation.items| == 4 && CardOnCentreLine(r.navigation, s.w, s.h)
    ensures r.hudNavigation == "23 mins " + Navigation.RightArrow
    ensures s.mode == CarScanName ==> r.carscan.items == []
    ensures s.mode != CarScanName ==> r.carscan == s.carscan
    ensures r == s.(mode := NavigationName, navigation := r.navigation, hudNavigation := r.hudNavigation,
                    carscan := r.carscan)
  {
    ActivateNavigation(SwitchMode(s, NavigationName))
  }

  /** `open_carscan`. */
  function OpenCarScan(s: AppState): (r: AppState)
    ensures r.mode == CarScanName
    ensures r.carscan.guideStep == 0 && |r.carscan.items| == 3 && CarScan.Valid(r.carscan)
    ensures CarScan.CurrentTargetPosition(r.carscan) == Some(CarScan.TargetPoint(s.w, s.h, 0))
    ensures s.mode == NavigationName ==> r.navigation.items == []
    ensures s.mode != NavigationName ==> r.navigation == s.navigation
    ensures r == s.(mode := CarScanName, navigation := r.navigation, carscan := r.carscan)
  {
    var s1 := SwitchMode(s, CarScanName);
    CarScan.NextStepAdvances(s1.carscan, s.w, s.h);
    s1.(carscan := CarScan.Activate(s1.carscan, s.w, s.h))
  }

  /** `refresh_canvas_view`: re-places the HUD and re-activates the current mode, if it has an entry. */
  function RefreshCanvasView(s: AppState): (r: AppState)
    ensures r.mode == s.mode && r.params == s.params && r.knob == s.knob
    ensures s.mode == CarScanName ==> r.carscan == CarScan.Activate(s.carscan, s.w, s.h)
    ensures s.mode != CarScanName ==> r.carscan == s.carscan
    ensures s.mode == NavigationName ==> |r.navigation.items| == 4 && CardOnCentreLine(r.navigation, s.w, s.h)
    ensures s.mode != NavigationName ==> r.navigation == s.navigation && r.hudNavigation == s.hudNavigation
    ensures r == s.(hud := r.hud, navigation := r.navigation, hudNavigation := r.hudNavigation, carscan := r.carscan)
    ensures var (lx, rx) := GetLensGeometry(s.w, s.h, s.params); r.hud == Hud.PositionItems(lx, rx)
  {
    var s1 := PositionHud(s);
    if s1.mode == NavigationName then ActivateNavigation(s1)
    else if s1.mode == CarScanName then s1.(carscan := CarScan.Activate(s1.carscan, s1.w, s1.h))
    else s1
  }

  /** The JSON sidecar of a capture; the two optional fields are absent as `None`. */
  datatype Metadata = Metadata(timestamp: int, mode: string, lensParams: LensParams,
                               guideStep: Option<int>, guideCenter: Option<Point>)

  /**
   * The metadata of `capture_frame`: always the time, the mode and a copy of
   * the lens parameters; the guide step only in car-scan mode; the guide
   * centre only when, in addition, a ring is drawn.
   */
  function CaptureMetadata(s: AppState, ts: int): (m: Metadata)
    requires CarScan.Valid(s.carscan)
    ensures m.timestamp == ts && m.mode == s.mode && m.lensParams == s.params
    ensures m.guideStep.Some? <==> s.mode == CarScanName
    ensures m.guideStep.Some? ==> m.guideStep.value == s.carscan.guideStep
    ensures m.guideCenter.Some? <==> s.mode == CarScanName && s.carscan.items != []
    ensures m.guideCenter.Some? ==> m.guideCenter == CarScan.CurrentTargetPosition(s.carscan)
  {
    if s.mode == CarScanName then
      Metadata(ts, s.mode, s.params, Some(s.carscan.guideStep), CarScan.CurrentTargetPosition(s.carscan))
    else
      Metadata(ts, s.mode, s.params, None, None)
  }

  /** The names of the composite image, the edge-highlighted image and the JSON sidecar. */
  datatype CaptureFiles = CaptureFiles(image: string, detection: string, metadata: string)

  const CapturePrefix: string := "capture_"

  function CaptureFileNames(ts: int): (f: CaptureFiles)
    ensures f.image != f.detection && f.image != f.metadata && f.detection != f.metadata
  {
    var stamp := IntToDecimal(ts);
    CaptureFiles(CapturePrefix + stamp + ".png", CapturePrefix + stamp + "_det.png", CapturePrefix + stamp + ".json")
  }

  /** Each file name gives back the timestamp it was made from, so captures at different seconds never collide. */
  lemma CaptureNamesIdentifyTimestamp(ts1: int, ts2: int)
    ensures CaptureFileNames(ts1).image == CaptureFileNames(ts2).image <==> ts1 == ts2
    ensures CaptureFileNames(ts1).detection == CaptureFileNames(ts2).detection <==> ts1 == ts2
    ensures CaptureFileNames(ts1).metadata == CaptureFileNames(ts2).metadata <==> ts1 == ts2
  {
    var f1, f2 := CaptureFileNames(ts1), CaptureFileNames(ts2);
    var d1, d2 := IntToDecimal(ts1), IntToDecimal(ts2);
    assert f1.image[8..|f1.image| - 4] == d1 && f2.image[8..|f2.image| - 4] == d2;
    assert f1.detection[8..|f1.detection| - 8] == d1 && f2.detection[8..|f2.detection| - 8] == d2;
    assert f1.metadata[8..|f1.metadata| - 5] == d1 && f2.metadata[8..|f2.metadata| - 5] == d2;
    DecimalInjective(ts1, ts2);
  }

  /** Everything `capture_frame` produces: the record, the file names, the 60 px ring drawn on the image, the next state. */
  datatype Capture = Capture(meta: Metadata, files: CaptureFiles, highlight: Option<Box>, next: AppState)

  /**
   * `capture_frame` at whole second `ts`: a ring of radius 30 is drawn on the
   * captured image around the guide centre when there is one, and the view is
   * refreshed afterwards.
   */
  function CaptureFrame(s: AppState, ts: int): (c: Capture)
    requires CarScan.Valid(s.carscan)
    ensures c.meta == CaptureMetadata(s, ts) && c.files == CaptureFileNames(ts)
    ensures c.highlight.Some? <==> c.meta.guideCenter.Some?
    ensures c.highlight.Some? ==> c.highlight.value == BoxAround(c.meta.guideCenter.value, 30, 30)
    ensures c.next == RefreshCanvasView(s)
  {
    var meta := CaptureMetadata(s, ts);
    var highlight := if meta.guideCenter.Some? then Some(BoxAround(meta.guideCenter.value, 30, 30)) else None;
    Capture(meta, CaptureFileNames(ts), highlight, RefreshCanvasView(s))
  }

  // ---------------------------------------------------------------------------
  // Properties
  // ---------------------------------------------------------------------------

  /** The app's copy of the lens computation gives exactly the overlay's two lens boxes. */
  lemma GeometryIsLayout(w: int, h: int, p: LensParams)
    ensures var l := Overlay.ComputeLayout(w, h, OverlayParams(p));
      GetLensGeometry(w, h, p) == (Overlay.LeftLens(l), Overlay.RightLens(l))
  {
    var l := Overlay.ComputeLayout(w, h, OverlayParams(p));
    assert l.lw == Scale(w, p.lensW) && l.lh == Scale(h, p.lensH) && l.cy == Scale(h, 53);
  }

  /**
   * The app's copy of the lens computation gives exactly the two boxes the
   * overlay is drawn with: the boxes of its rims.
   */
  lemma GeometryAgreesWithOverlay(w: int, h: int, p: LensParams)
    ensures var l := Overlay.ComputeLayout(w, h, OverlayParams(p));
      var ops := Overlay.Generate(w, h, OverlayParams(p)).ops;
      && GetLensGeometry(w, h, p) == (Overlay.LeftLens(l), Overlay.RightLens(l))
      && ops[14] == Overlay.DrawOp(Overlay.Rim, Overlay.Ellipse(GetLensGeometry(w, h, p).0))
      && ops[15] == Overlay.DrawOp(Overlay.Rim, Overlay.Ellipse(GetLensGeometry(w, h, p).1))
  {
    var l := Overlay.ComputeLayout(w, h, OverlayParams(p));
    GeometryIsLayout(w, h, p);
    OverlayProperties.RimsOnLenses(l, OverlayParams(p));
  }

  /** The start-up lens boxes: 1000 x 520 canvas, IPD 240, ratios 0.30 and 0.56. */
  lemma DefaultLensBoxes()
    ensures GetLensGeometry(CanvasWidth, CanvasHeight, DefaultParams)
            == (Box(191, 130, 491, 420), Box(509, 130, 809, 420))
  {
  }

  /** The start-up crown box, and the state the app starts in. */
  lemma DefaultKnob()
    ensures Init().knob == Some(Box(896, 241, 964, 309))
    ensures Init().mode == MenuName && !Init().panelOpen
  {
    var l := Overlay.ComputeLayout(CanvasWidth, CanvasHeight, OverlayParams(DefaultParams));
    assert l.lh == 291 && l.cy == 275;
    assert Overlay.ArmHeight(l) == 52;
    assert Overlay.KnobBox(l) == Box(896, 241, 964, 309);
  }

  /**
   * The navigation card is centred on the canvas column `w // 2` and on the
   * lens centre line whatever the lens parameters, which is why changing them
   * does not need to move it.
   */
  lemma NavigationCardCentred(w: int, h: int, p: LensParams)
    ensures var (lx, rx) := GetLensGeometry(w, h, p);
      Navigation.CardCentre(lx, rx) == Point(w / 2, Scale(h, 53))
  {
    var (lx, rx) := GetLensGeometry(w, h, p);
    assert lx.x2 + rx.x1 == 2 * (w / 2);
    TruncHalfOfDouble(Scale(h, 53));
    assert lx.y1 + lx.y2 == 2 * Scale(h, 53);
  }

  /**
   * On the application's canvas, at every slider position, both lenses and
   * the crown lie on the canvas, the lenses do not touch, and the crown lies
   * wholly to the right of the right lens.
   */
  lemma SliderRangeFitsCanvas(p: LensParams)
    requires InSliderRange(p)
    ensures var (lx, rx) := GetLensGeometry(CanvasWidth, CanvasHeight, p);
      var k := Overlay.Generate(CanvasWidth, CanvasHeight, OverlayParams(p)).knob;
      var canvas := Box(0, 0, CanvasWidth, CanvasHeight);
      && lx.WellFormed() && rx.WellFormed() && k.WellFormed()
      && canvas.Encloses(lx) && canvas.Encloses(rx) && canvas.Encloses(k)
      && lx.x2 < rx.x1
      && rx.x2 < k.x1
  {
    var l := Overlay.ComputeLayout(CanvasWidth, CanvasHeight, OverlayParams(p));
    assert Scale(CanvasWidth, p.lensW) == 10 * p.lensW;
    ScaleGrowsWithRatio(CanvasHeight, LensHMin, p.lensH);
    ScaleGrowsWithRatio(CanvasHeight, p.lensH, LensHMax);
    assert Scale(CanvasHeight, LensHMin) == 234 && Scale(CanvasHeight, LensHMax) == 338;
    assert 234 <= l.lh <= 338;
    ScaleMonotone(l.lh, 338, Overlay.ArmHeightRatio);
    ScaleBounds(l.lh, Overlay.ArmHeightRatio);
    assert Scale(338, Overlay.ArmHeightRatio) == 60;
    assert 0 <= Overlay.ArmHeight(l) <= 60;
    GeometryAgreesWithOverlay(CanvasWidth, CanvasHeight, p);
  }

  /**
   * After a slider change on the application's canvas, the HUD sits on the
   * lenses drawn: the clock and the battery inside the left lens, on one row,
   * and the navigation hint inside the right lens.
   */
  lemma HudOnLensesAfterSliderChange(s: AppState, ipd: int, lensW: int, lensH: int)
    requires s.w == CanvasWidth && s.h == CanvasHeight
    requires InSliderRange(LensParams(ipd, lensW, lensH))
    ensures var r := UpdateLensParams(s, ipd, lensW, lensH);
      var (lx, rx) := GetLensGeometry(r.w, r.h, r.params);
      && lx.Contains(r.hud.time) && lx.Contains(r.hud.battery)
      && r.hud.time.y == r.hud.battery.y
      && rx.Contains(r.hud.navigation)
  {
    var p := LensParams(ipd, lensW, lensH);
    SliderRangeFitsCanvas(p);
    var (lx, rx) := GetLensGeometry(CanvasWidth, CanvasHeight, p);
    Hud.AnchorsInsideLenses(lx, rx);
  }

  /**
   * At start-up and after every refresh on the 1000 x 520 canvas, the clock and
   * battery anchors lie in the left lens on one row and the navigation anchor
   * lies in the right lens.
   */
  lemma HudOnLensesAtStartAndRefresh(s: AppState)
    requires s.w == CanvasWidth && s.h == CanvasHeight && InSliderRange(s.params)
    ensures var r := Init();
      var (lx, rx) := GetLensGeometry(r.w, r.h, r.params);
      && lx.Contains(r.hud.time) && lx.Contains(r.hud.battery)
      && r.hud.time.y == r.hud.battery.y
      && rx.Contains(r.hud.navigation)
    ensures var r := RefreshCanvasView(s);
      var (lx, rx) := GetLensGeometry(r.w, r.h, r.params);
      && lx.Contains(r.hud.time) && lx.Contains(r.hud.battery)
      && r.hud.time.y == r.hud.battery.y
      && rx.Contains(r.hud.navigation)
  {
    SliderRangeFitsCanvas(DefaultParams);
    var (dlx, drx) := GetLensGeometry(CanvasWidth, CanvasHeight, DefaultParams);
    Hud.AnchorsInsideLenses(dlx, drx);
    SliderRangeFitsCanvas(s.params);
    var (lx, rx) := GetLensGeometry(CanvasWidth, CanvasHeight, s.params);
    Hud.AnchorsInsideLenses(lx, rx);
  }

  /** Every operation leaves the car-scan items empty or led by the guide ring. */
  lemma OperationsKeepRingFirst(s: AppState, x: int, y: int, name: string, ipd: int, lensW: int, lensH: int)
    requires CarScan.Valid(s.carscan)
    ensures CarScan.Valid(UpdateLensParams(s, ipd, lensW, lensH).carscan)
    ensures CarScan.Valid(OnCanvasClick(s, x, y).carscan)
    ensures CarScan.Valid(SwitchMode(s, name).carscan)
    ensures CarScan.Valid(ShowMenu(s).carscan)
  {
  }

  /** Opening a mode and capturing a frame also leave the car-scan items empty or led by the guide ring. */
  lemma OpeningAndCaptureKeepRingFirst(s: AppState, ts: int)
    requires CarScan.Valid(s.carscan)
    ensures CarScan.Valid(OpenNavigation(s).carscan)
    ensures CarScan.Valid(OpenCarScan(s).carscan)
    ensures CarScan.Valid(CaptureFrame(s, ts).next.carscan)
  {
  }

  /**
   * Capturing in car-scan mode records the current step and ring centre, then
   * the refresh re-activates the mode, which sends the guide back to step 0.
   */
  lemma CaptureRestartsGuidance(s: AppState, ts: int)
    requires CarScan.Valid(s.carscan) && s.mode == CarScanName && s.carscan.items != []
    ensures var c := CaptureFrame(s, ts);
      && c.meta.guideStep == Some(s.carscan.guideStep)
      && c.meta.guideCenter == CarScan.CurrentTargetPosition(s.carscan)
      && c.next.mode == CarScanName
      && c.next.carscan.guideStep == 0
      && CarScan.CurrentTargetPosition(c.next.carscan) == Some(CarScan.TargetPoint(s.w, s.h, 0))
  {
    CarScan.NextStepAdvances(PositionHud(s).carscan, s.w, s.h);
  }

  /** A capture straight after opening car-scan mode records step 0 and the first target as its centre. */
  lemma CaptureAfterOpenCarScan(s: AppState, ts: int)
    ensures var o := OpenCarScan(s);
      var m := CaptureFrame(o, ts).meta;
      && m.mode == CarScanName
      && m.guideStep == Some(0)
      && m.guideCenter == Some(CarScan.TargetPoint(s.w, s.h, 0))
  {
  }
}

=== FILE: carscan.dfy ===
/**
 * `CarScanMode`: a guide ring that steps through eight fixed targets on the
 * canvas, with an arrow above it and a "Target n" label below it.
 */
module CarScan {
  import opened Wrappers
  import opened Numeric
  import opened Shapes

  /** The target table, as fractions of the canvas width and height in hundredths. */
  const Targets: seq<(int, int)> :=
    [(35, 35), (65, 35), (20, 60), (50, 60), (80, 60), (35, 80), (65, 80), (50, 50)]
  const RingRadius: int := 40

  /** The mode's state: the guide step and the canvas items it has drawn (ring first). */
  datatype CarScanMode = CarScanMode(guideStep: int, items: seq<Item>)

  /** A freshly constructed mode: step 0, nothing drawn. */
  const Fresh: CarScanMode := CarScanMode(0, [])

  /** The items list is empty or starts with the guide ring, which is what the target lookup reads. */
  predicate Valid(m: CarScanMode)
  {
    |m.items| == 0 || m.items[0].Oval?
  }

  /** The target of a step: the table entry at `step % 8` scaled to the canvas. */
  function TargetPoint(w: int, h: int, step: int): Point
  {
    var t := Targets[step % |Targets|];
    Point(Scale(w, t.0), Scale(h, t.1))
  }

  /** `f"Target {step + 1}"`. */
  function Label(step: int): string
  {
    "Target " + IntToDecimal(step + 1)
  }

  /** The ring, the arrow above it and the label below it, in the order they are drawn. */
  function GuidanceItems(w: int, h: int, step: int): seq<Item>
  {
    var p := TargetPoint(w, h, step);
    [Oval(BoxAround(p, RingRadius, RingRadius)),
     Polygon([Point(p.x, p.y - 70), Point(p.x - 10, p.y - 35), Point(p.x + 10, p.y - 35)]),
     Text(Point(p.x, p.y + 60), Label(step))]
  }

  /** `show_guidance_overlay`: replaces the drawn items with those of `step`; the guide step is not touched. */
  function ShowGuidanceOverlay(m: CarScanMode, w: int, h: int, step: int): (r: CarScanMode)
    ensures Valid(r) && |r.items| == 3
    ensures r.guideStep == m.guideStep
    ensures r.items[0] == Oval(BoxAround(TargetPoint(w, h, step), RingRadius, RingRadius))
    ensures var p := TargetPoint(w, h, step);
      r.items[1] == Polygon([Point(p.x, p.y - 70), Point(p.x - 10, p.y - 35), Point(p.x + 10, p.y - 35)])
    ensures r.items[2] == Text(Point(TargetPoint(w, h, step).x, TargetPoint(w, h, step).y + 60), Label(step))
  {
    m.(items := GuidanceItems(w, h, step))
  }

  /** `activate`: clears, resets the guide step to 0 and shows the first target. */
  function Activate(m: CarScanMode, w: int, h: int): (r: CarScanMode)
    ensures Valid(r) && r.guideStep == 0 && |r.items| == 3
    ensures r.items[0] == Oval(BoxAround(Point(Scale(w, 35), Scale(h, 35)), RingRadius, RingRadius))
  {
    ShowGuidanceOverlay(m.(items := [], guideStep := 0), w, h, 0)
  }

  /** `deactivate`: removes the drawn items and keeps the guide step. */
  function Deactivate(m: CarScanMode): (r: CarScanMode)
    ensures Valid(r) && r.items == [] && r.guideStep == m.guideStep
  {
    m.(items := [])
  }

  /** `next_step`: advances the guide step by one and shows its target. */
  function NextStep(m: CarScanMode, w: int, h: int): (r: CarScanMode)
    ensures Valid(r) && r.guideStep == m.guideStep + 1 && |r.items| == 3
  {
    ShowGuidanceOverlay(m.(guideStep := m.guideStep + 1), w, h, m.guideStep + 1)
  }

  /**
   * `get_current_target_position`: the centre of the ring's box, each
   * coordinate `int((a + b) / 2)`, or nothing when no item is drawn.
   */
  function CurrentTargetPosition(m: CarScanMode): (r: Option<Point>)
    requires Valid(m)
    ensures r.None? <==> m.items == []
  {
    if |m.items| > 0 then
      var b := m.items[0].box;
      Some(Point(Trunc(b.x1 + b.x2, 2), Trunc(b.y1 + b.y2, 2)))
    else None
  }

  /** The position read back from the ring is the target the ring was drawn around. */
  lemma TargetRoundTrip(m: CarScanMode, w: int, h: int, step: int)
    ensures CurrentTargetPosition(ShowGuidanceOverlay(m, w, h, step)) == Some(TargetPoint(w, h, step))
  {
    var p := TargetPoint(w, h, step);
    TruncHalfOfDouble(p.x);
    TruncHalfOfDouble(p.y);
  }

  /**
   * The label keeps counting where the target wraps: steps eight apart share
   * a target but never a label.
   */
  lemma LabelOutrunsTargets(w: int, h: int, step: int)
    ensures TargetPoint(w, h, step + 8) == TargetPoint(w, h, step)
    ensures Label(step + 8) != Label(step)
  {
    assert (step + 8) % 8 == step % 8;
    DecimalInjective(step + 9, step + 1);
    assert IntToDecimal(step + 9) == Label(step + 8)[7..];
    assert IntToDecimal(step + 1) == Label(step)[7..];
  }

  /** Each `next_step` moves the ring to the following target, which `activate` restarts from the first. */
  lemma NextStepAdvances(m: CarScanMode, w: int, h: int)
    ensures CurrentTargetPosition(NextStep(m, w, h)) == Some(TargetPoint(w, h, m.guideStep + 1))
    ensures CurrentTargetPosition(Activate(m, w, h)) == Some(TargetPoint(w, h, 0))
  {
    TargetRoundTrip(m.(guideStep := m.guideStep + 1), w, h, m.guideStep + 1);
    TargetRoundTrip(m.(items := [], guideStep := 0), w, h, 0);
  }
}

=== FILE: hud.dfy ===
/**
 * `HUDManager.position_items`: where the clock, battery and navigation texts
 * are anchored, as fractions of the lens boxes they sit in.
 */
module Hud {
  import opened Numeric
  import opened Shapes

  /** Horizontal insets of the clock and navigation texts (8%) and of the battery text (10%). */
  const ClockInsetRatio: int := 8
  const BatteryInsetRatio: int := 10
  /** All three texts sit 12% of the lens height below the lens top. */
  const TopInsetRatio: int := 12

  datatype Anchors = Anchors(time: Point, battery: Point, navigation: Point)

  /**
   * The clock near the top-left and the battery near the top-right of the left
   * lens, the navigation hint near the top-right of the right lens.
   */
  function PositionItems(lx: Box, rx: Box): Anchors
  {
    var top := lx.y1 + Scale(lx.Height(), TopInsetRatio);
    Anchors(Point(lx.x1 + Scale(lx.Width(), ClockInsetRatio), top),
            Point(lx.x2 - Scale(lx.Width(), BatteryInsetRatio), top),
            Point(rx.x2 - Scale(rx.Width(), ClockInsetRatio), rx.y1 + Scale(rx.Height(), TopInsetRatio)))
  }

  /**
   * Inside well-formed lens boxes every anchor lies in its lens: the clock
   * and the battery in the left one, on one row, the clock not right of the
   * battery; the navigation hint in the right one.
   */
  lemma AnchorsInsideLenses(lx: Box, rx: Box)
    requires lx.WellFormed() && rx.WellFormed()
    ensures var a := PositionItems(lx, rx);
      && lx.Contains(a.time) && lx.Contains(a.battery)
      && a.time.y == a.battery.y && a.time.x <= a.battery.x
      && rx.Contains(a.navigation)
  {
    ScaleBounds(lx.Height(), TopInsetRatio);
    ScaleBounds(lx.Width(), BatteryInsetRatio);
    ScaleGrowsWithRatio(lx.Width(), ClockInsetRatio, 100 - BatteryInsetRatio);
    ScaleComplement(lx.Width(), BatteryInsetRatio);
    ScaleBounds(rx.Width(), ClockInsetRatio);
    ScaleBounds(rx.Height(), TopInsetRatio);
  }
}

=== FILE: navigation.dfy ===
/**
 * `NavigationMode`: a 320 x 140 card between the lenses holding a turn arrow,
 * the distance and the ETA, and the matching hint in the HUD.
 */
module Navigation {
  import opened Numeric
  import opened Shapes

  const CardWidth: int := 320
  const CardHeight: int := 140
  const RightArrow: string := "\U{2192}"
  const LeftArrow: string := "\U{2190}"
  const UpArrow: string := "\U{2191}"

  /** The mode's state: the canvas items it has drawn, card first. */
  datatype NavigationMode = NavigationMode(items: seq<Item>)

  const Fresh: NavigationMode := NavigationMode([])

  /** What drawing the overlay yields: the mode's new items and the HUD's navigation text. */
  datatype Drawn = Drawn(mode: NavigationMode, hudText: string)

  /** Turns to the right and left get their arrow; every other direction reads as straight on. */
  function ArrowFor(direction: string): (arrow: string)
    ensures arrow == RightArrow <==> direction == "right"
    ensures arrow == LeftArrow <==> direction == "left"
    ensures arrow == UpArrow <==> direction != "right" && direction != "left"
  {
    if direction == "right" then RightArrow else if direction == "left" then LeftArrow else UpArrow
  }

  /** The card's centre: the middle of the gap between the lenses, at the lenses' mid-height. */
  function CardCentre(lx: Box, rx: Box): Point
  {
    Point((lx.x2 + rx.x1) / 2, Trunc(lx.y1 + lx.y2, 2))
  }

  /**
   * `draw_navigation_overlay`: appends the card, the arrow, the distance and
   * the ETA to the items already drawn, and sets the HUD hint to the ETA
   * followed by the arrow.
   */
  function DrawNavigationOverlay(m: NavigationMode, lx: Box, rx: Box,
                                 direction: string, distance: string, eta: string): (d: Drawn)
    ensures |d.mode.items| == |m.items| + 4 && d.mode.items[..|m.items|] == m.items
    ensures d.mode.items[|m.items|] == Rectangle(BoxAround(CardCentre(lx, rx), CardWidth / 2, CardHeight / 2))
    ensures d.mode.items[|m.items| + 1] == Text(Point(CardCentre(lx, rx).x - 80, CardCentre(lx, rx).y), ArrowFor(direction))
    ensures var c := CardCentre(lx, rx);
      && d.mode.items[|m.items| + 2] == Text(Point(c.x + 40, c.y - 18), distance)
      && d.mode.items[|m.items| + 3] == Text(Point(c.x + 40, c.y + 18), eta)
    ensures d.hudText == eta + " " + ArrowFor(direction)
  {
    var c := CardCentre(lx, rx);
    var arrow := ArrowFor(direction);
    var card := Rectangle(BoxAround(c, CardWidth / 2, CardHeight / 2));
    var items := m.items + [card, Text(Point(c.x - 80, c.y), arrow),
                            Text(Point(c.x + 40, c.y - 18), distance),
                            Text(Point(c.x + 40, c.y + 18), eta)];
    Drawn(NavigationMode(items), eta + " " + arrow)
  }

  /** `activate`: clears, then draws the demo route: right turn, "600 ft", "23 mins". */
  function Activate(m: NavigationMode, lx: Box, rx: Box): (d: Drawn)
    ensures |d.mode.items| == 4
    ensures d.mode.items[0] == Rectangle(BoxAround(CardCentre(lx, rx), CardWidth / 2, CardHeight / 2))
    ensures d.mode.items[1] == Text(Point(CardCentre(lx, rx).x - 80, CardCentre(lx, rx).y), RightArrow)
    ensures var c := CardCentre(lx, rx);
      && d.mode.items[2] == Text(Point(c.x + 40, c.y - 18), "600 ft")
      && d.mode.items[3] == Text(Point(c.x + 40, c.y + 18), "23 mins")
    ensures d.hudText == "23 mins " + RightArrow
  {
    var cleared := m.(items := []);
    assert |cleared.items| == 0;
    DrawNavigationOverlay(cleared, lx, rx, "right", "600 ft", "23 mins")
  }

  /** `deactivate`: removes every drawn item. */
  function Deactivate(m: NavigationMode): (r: NavigationMode)
    ensures r.items == []
  {
    m.(items := [])
  }
}

=== FILE: numeric.dfy ===
/**
 * Integer arithmetic shared by the layout code.
 *
 * The Python code multiplies pixel sizes by two-decimal float literals and
 * slider values (`int(w * 0.97)`, `int(h * lens_h_ratio)`).  The model keeps
 * every ratio as a whole number of hundredths, so `int(n * r)` becomes
 * `Scale(n, k)` with `r = k / 100`, and `int(x / d)` (true division followed
 * by truncation toward zero) becomes `Trunc(x, d)`.  Python's `//` by a
 * positive constant is floor division, which is what Dafny's `/` computes for
 * a positive divisor, so `x // 2` is written `x / 2`.
 */
module Numeric {

  /** `int(n / d)` in Python for a positive divisor: rounds toward zero. */
  function Trunc(n: int, d: int): int
    requires d > 0
  {
    if n >= 0 then n / d else -((-n) / d)
  }

  /** Halving a doubled value is exact, whatever its sign. */
  lemma TruncHalfOfDouble(x: int)
    ensures Trunc(x + x, 2) == x
  {
  }

  /** `int(n * (k / 100))`: a ratio given in hundredths applied to a pixel count. */
  function Scale(n: int, k: int): (r: int)
  {
    Trunc(n * k, 100)
  }

  lemma MulNonNegative(a: int, b: int)
    requires a >= 0 && b >= 0
    ensures a * b >= 0
  {
  }

  /** On non-negative operands the scaled value is the floor of `n * k / 100`. */
  lemma ScaleFloor(n: int, k: int)
    requires n >= 0 && k >= 0
    ensures 0 <= 100 * Scale(n, k) <= n * k < 100 * Scale(n, k) + 100
  {
    MulNonNegative(n, k);
  }

  /** A ratio of at most one hundred hundredths never exceeds the value it scales. */
  lemma ScaleBounds(n: int, k: int)
    requires n >= 0 && 0 <= k <= 100
    ensures 0 <= Scale(n, k) <= n
  {
    ScaleFloor(n, k);
    assert n * k <= n * 100 by {
      MulNonNegative(n, 100 - k);
      assert n * (100 - k) == n * 100 - n * k;
    }
  }

  /** Flooring by one hundred is super-additive on non-negative numerators. */
  lemma DivSuperAdditive(a: int, b: int)
    requires a >= 0 && b >= 0
    ensures a / 100 + b / 100 <= (a + b) / 100 <= a / 100 + b / 100 + 1
  {
    var qa, ra := a / 100, a % 100;
    var qb, rb := b / 100, b % 100;
    assert a + b == (qa + qb) * 100 + (ra + rb);
    if ra + rb < 100 {
      assert (a + b) / 100 == qa + qb;
    } else {
      assert a + b == (qa + qb + 1) * 100 + (ra + rb - 100);
      assert (a + b) / 100 == qa + qb + 1;
    }
  }

  /**
   * Raising the ratio by `k2 - k1` hundredths raises the scaled value by at
   * least the floor of `n / 100` per hundredth, hence it is monotone.
   */
  lemma ScaleGrowsWithRatio(n: int, k1: int, k2: int)
    requires n >= 0 && 0 <= k1 <= k2
    ensures Scale(n, k2) - Scale(n, k1) >= (k2 - k1) * (n / 100)
  {
    var d, q := k2 - k1, n / 100;
    var a, e := n * k1, n * d;
    assert n * k2 == a + e by {
      assert k2 == k1 + d;
    }
    MulNonNegative(n, k1);
    MulNonNegative(n, d);
    DivSuperAdditive(a, e);
    assert e >= 100 * (d * q) by {
      MulNonNegative(d, n - 100 * q);
      assert d * (n - 100 * q) == e - 100 * (d * q);
    }
    assert e / 100 >= d * q;
    assert Scale(n, k2) == (a + e) / 100;
    assert Scale(n, k1) == a / 100;
  }

  /** On a value of at least 200, every extra hundredth of ratio adds at least two. */
  lemma ScaleGainsTwoPixels(n: int, k1: int, k2: int)
    requires n >= 200 && 0 <= k1 < k2
    ensures Scale(n, k2) >= Scale(n, k1) + 2
  {
    ScaleGrowsWithRatio(n, k1, k2);
    var d, q := k2 - k1, n / 100;
    assert q >= 2;
    assert d * q >= q by {
      MulNonNegative(d - 1, q);
      assert d * q == q + (d - 1) * q;
    }
  }

  /** Scaling is monotone in the value scaled. */
  lemma ScaleMonotone(n1: int, n2: int, k: int)
    requires 0 <= n1 <= n2 && k >= 0
    ensures Scale(n1, k) <= Scale(n2, k)
  {
    assert n1 * k <= n2 * k;
    assert n1 * k >= 0;
  }

  /** The floors of two complementary shares of `n` add up to `n` or to `n - 1`. */
  lemma ScaleComplement(n: int, k: int)
    requires n >= 0 && 0 <= k <= 100
    ensures n - 1 <= Scale(n, k) + Scale(n, 100 - k) <= n
  {
    assert n * k + n * (100 - k) == n * 100;
    assert n * k >= 0 && n * (100 - k) >= 0;
    DivSuperAdditive(n * k, n * (100 - k));
    assert (n * 100) / 100 == n;
  }

  // ---------------------------------------------------------------------------
  // Decimal rendering, as Python's `str(int)` and f-strings print an integer.
  // ---------------------------------------------------------------------------

  predicate IsDigit(c: char)
  {
    '0' <= c <= '9'
  }

  predicate AllDigits(s: string)
  {
    forall i :: 0 <= i < |s| ==> IsDigit(s[i])
  }

  function DigitChar(d: int): (c: char)
    requires 0 <= d < 10
    ensures IsDigit(c) && (c as int) - ('0' as int) == d
  {
    "0123456789"[d]
  }

  /** Decimal digits of a natural number, without leading zeros. */
  function NatToDecimal(n: nat): (s: string)
    ensures 1 <= |s| && AllDigits(s)
    ensures |s| > 1 ==> s[0] != '0'
    decreases n
  {
    if n < 10 then [DigitChar(n)] else NatToDecimal(n / 10) + [DigitChar(n % 10)]
  }

  /** `str(n)`: a minus sign before the digits of a negative number. */
  function IntToDecimal(n: int): (s: string)
    ensures 1 <= |s|
    ensures n >= 0 <==> IsDigit(s[0])
  {
    if n < 0 then "-" + NatToDecimal(-n) else NatToDecimal(n)
  }

  /** The value of a string of decimal digits. */
  function DigitsValue(s: string): (v: nat)
    requires AllDigits(s)
  {
    if s == [] then 0 else DigitsValue(s[..|s| - 1]) * 10 + ((s[|s| - 1] as int) - ('0' as int))
  }

  /** `int(s)` on what `str` prints: an optional minus sign, then digits. */
  function ParseDecimal(s: string): int
  {
    if |s| > 0 && s[0] == '-' && AllDigits(s[1..]) then 0 - DigitsValue(s[1..]) as int
    else if AllDigits(s) then DigitsValue(s)
    else 0
  }

  lemma {:induction false} NatToDecimalRoundTrip(n: nat)
    ensures DigitsValue(NatToDecimal(n)) == n
    decreases n
  {
    var s := NatToDecimal(n);
    if n >= 10 {
      NatToDecimalRoundTrip(n / 10);
      assert s[..|s| - 1] == NatToDecimal(n / 10);
    }
  }

  /** Reading back a printed negative integer gives the integer. */
  lemma NegativeDecimalRoundTrip(m: nat)
    requires m > 0
    ensures ParseDecimal("-" + NatToDecimal(m)) == -(m as int)
  {
    var digits := NatToDecimal(m);
    var s := "-" + digits;
    assert s[0] == '-' && s[1..] == digits;
    NatToDecimalRoundTrip(m);
  }

  /** Reading back a printed integer gives the integer. */
  lemma DecimalRoundTrip(n: int)
    ensures ParseDecimal(IntToDecimal(n)) == n
  {
    if n < 0 {
      NegativeDecimalRoundTrip(-n);
    } else {
      NatToDecimalRoundTrip(n);
      assert IntToDecimal(n)[0] != '-';
    }
  }

  /** Distinct integers print differently. */
  lemma DecimalInjective(a: int, b: int)
    ensures IntToDecimal(a) == IntToDecimal(b) <==> a == b
  {
    if IntToDecimal(a) == IntToDecimal(b) {
      DecimalRoundTrip(a);
      DecimalRoundTrip(b);
    }
  }
}

=== FILE: overlay.dfy ===
/**
 * The glasses overlay of `GlassesOverlay.generate`: from the canvas size and
 * the lens parameters it places both lenses, the bridge, the temple arms, the
 * digital crown, the frame and the bottom bar, and returns the crown's box for
 * hit-testing.  Only the coordinates handed to Pillow and the order of the
 * draw calls are modelled; colours, stroke widths and the raster are not.
 */
module Overlay {
  import opened Numeric
  import opened Shapes

  /** `DEFAULT_BRIDGE_MIN`: the smallest gap, in pixels, the layout keeps between the lenses. */
  const DefaultBridgeMin: int := 18
  /** The default `lower_bar_h_ratio` of 0.12, in hundredths. */
  const DefaultLowerBarRatio: int := 12
  /** The lens centre line sits at 53% of the canvas height. */
  const CentreLineRatio: int := 53
  /** Temple arms are 18% of the lens height tall. */
  const ArmHeightRatio: int := 18
  /** The left arm starts at 3% and the right arm ends at 97% of the canvas width. */
  const LeftArmEndRatio: int := 3
  const RightArmEndRatio: int := 97
  /** The crown's radius is half the arm height plus this many pixels. */
  const CrownPad: int := 8
  /** The crown sits this many pixels inside the right arm's outer end. */
  const CrownInset: int := 6
  const FrameMargin: int := 20
  const FrameRadius: int := 40
  /** The bottom bar spans 18% to 82% of the width and ends at 90% of the height. */
  const BarLeftRatio: int := 18
  const BarRightRatio: int := 82
  const BarBottomRatio: int := 90
  const BarOverhang: int := 8
  /** `range(2, 8, 2)`: the diagonal offsets of the three shadow outlines. */
  const ShadowOffsets: seq<int> := [2, 4, 6]

  /** The arguments of `generate`; the three ratios are in hundredths. */
  datatype Params = Params(ipd: int, lensW: int, lensH: int, bridgeMin: int, lowerBar: int)

  /** The values `generate` computes before it draws anything. */
  datatype Layout = Layout(w: int, h: int, cx: int, cy: int, lw: int, lh: int, ipdEff: int,
                           left: Point, right: Point)

  function Max(a: int, b: int): (m: int)
    ensures m >= a && m >= b && (m == a || m == b)
  {
    if a >= b then a else b
  }

  /**
   * Lens centres.  The effective IPD is the larger of the requested one and
   * the lens width plus the minimum bridge, and the centres sit half of it to
   * either side of `w // 2`, on the line at 53% of the height.
   */
  function ComputeLayout(w: int, h: int, p: Params): Layout
  {
    var cx := w / 2;
    var cy := Scale(h, CentreLineRatio);
    var lw := Scale(w, p.lensW);
    var lh := Scale(h, p.lensH);
    var ipdEff := Max(p.ipd, lw + p.bridgeMin);
    Layout(w, h, cx, cy, lw, lh, ipdEff, Point(cx - ipdEff / 2, cy), Point(cx + ipdEff / 2, cy))
  }

  /**
   * The effective IPD is the requested one, raised when needed so that the
   * lenses keep `bridge_min` apart; the two lens centres sit on the centre
   * line, mirrored about the centre column, `ipd_eff` apart up to the pixel
   * lost when it is odd.
   */
  lemma LayoutCentred(w: int, h: int, p: Params)
    ensures var l := ComputeLayout(w, h, p);
      && l.w == w && l.h == h
      && l.ipdEff >= p.ipd && l.ipdEff >= l.lw + p.bridgeMin
      && (l.ipdEff == p.ipd || l.ipdEff == l.lw + p.bridgeMin)
      && w - 1 <= 2 * l.cx <= w
      && l.left.x + l.right.x == 2 * l.cx
      && l.ipdEff - 1 <= l.right.x - l.left.x <= l.ipdEff
      && l.left.y == l.cy && l.right.y == l.cy
  {
  }

  /** `lens_bbox`: the centre plus or minus half the lens width and height, each halved by `//`. */
  function LensBox(l: Layout, c: Point): Box
  {
    Box(c.x - l.lw / 2, c.y - l.lh / 2, c.x + l.lw / 2, c.y + l.lh / 2)
  }

  /**
   * A lens box is centred on its lens centre and is `lw` or `lw - 1` pixels
   * wide, `lw - 1` exactly when `lw` is odd; likewise for the height.
   */
  lemma LensBoxSize(l: Layout, c: Point)
    requires l.lw >= 0 && l.lh >= 0
    ensures var b := LensBox(l, c);
      && b.x1 + b.x2 == 2 * c.x && b.y1 + b.y2 == 2 * c.y
      && l.lw - 1 <= b.Width() <= l.lw && (b.Width() == l.lw - 1 <==> l.lw % 2 == 1)
      && l.lh - 1 <= b.Height() <= l.lh && (b.Height() == l.lh - 1 <==> l.lh % 2 == 1)
  {
  }

  function LeftLens(l: Layout): Box
  {
    LensBox(l, l.left)
  }

  function RightLens(l: Layout): Box
  {
    LensBox(l, l.right)
  }

  // ---------------------------------------------------------------------------
  // Draw calls
  // ---------------------------------------------------------------------------

  /** The passes of `generate`, in the order it makes them. */
  datatype Layer = Shadow | Bridge | Arms | Crown | Frame | Tint | Rim | BottomBar

  function Rank(layer: Layer): nat
  {
    match layer
    case Shadow => 0
    case Bridge => 1
    case Arms => 2
    case Crown => 3
    case Frame => 4
    case Tint => 5
    case Rim => 6
    case BottomBar => 7
  }

  /** The geometry of one Pillow draw call. */
  datatype Shape =
    | Ellipse(box: Box)
    | Rect(box: Box)
    | RoundedRect(box: Box, radius: int)
    | Line(from: Point, to: Point)

  datatype DrawOp = DrawOp(layer: Layer, shape: Shape)

  /** What `generate` hands back: its draw calls in order, and the crown's box. */
  datatype Rendering = Rendering(ops: seq<DrawOp>, knob: Box)

  /** Later passes occlude earlier ones, so the calls must come in pass order. */
  predicate InLayerOrder(ops: seq<DrawOp>)
  {
    forall i, j :: 0 <= i < j < |ops| ==> Rank(ops[i].layer) <= Rank(ops[j].layer)
  }

  function LayersOf(ops: seq<DrawOp>): (ls: seq<Layer>)
    ensures |ls| == |ops| && forall i :: 0 <= i < |ops| ==> ls[i] == ops[i].layer
  {
    seq(|ops|, i requires 0 <= i < |ops| => ops[i].layer)
  }

  /** The passes of `generate`: three shadow rounds over both lenses, then one pass per component. */
  const PassOrder: seq<Layer> :=
    [Shadow, Shadow, Shadow, Shadow, Shadow, Shadow, Bridge, Arms, Arms, Crown, Crown,
     Frame, Tint, Tint, Rim, Rim, BottomBar]

  predicate AllOn(ops: seq<DrawOp>, layer: Layer)
  {
    forall i :: 0 <= i < |ops| ==> ops[i].layer == layer
  }

  /** One shadow round: the outline of the left and then the right lens moved `off` pixels diagonally. */
  function ShadowRound(l: Layout, off: int): seq<DrawOp>
  {
    [DrawOp(Shadow, Ellipse(LeftLens(l).Shift(off))), DrawOp(Shadow, Ellipse(RightLens(l).Shift(off)))]
  }

  /** `_draw_shadow`: one round per offset, in the order of the offsets. */
  function ShadowOps(l: Layout, offsets: seq<int>): (ops: seq<DrawOp>)
    ensures |ops| == 2 * |offsets|
    ensures AllOn(ops, Shadow)
  {
    seq(2 * |offsets|, i requires 0 <= i < 2 * |offsets| => ShadowRound(l, offsets[i / 2])[i % 2])
  }

  /** The horizontal gap between the right edge of the left lens and the left edge of the right lens. */
  function BridgeGap(l: Layout): int
  {
    (l.right.x - l.lw / 2) - (l.left.x + l.lw / 2)
  }

  /**
   * `_draw_bridge`: a bar across the gap whose top is an eighth of the lens
   * height above the centre line, or a line along the centre line when the
   * lenses touch or overlap.
   */
  function BridgeOp(l: Layout, bridgeMin: int): (op: DrawOp)
    ensures op.layer == Bridge
  {
    var bx1 := l.left.x + l.lw / 2;
    var bx2 := l.right.x - l.lw / 2;
    var top := l.cy - l.lh / 8;
    if bx2 > bx1 then DrawOp(Bridge, Rect(Box(bx1, top, bx2, top + Max(4, bridgeMin / 2))))
    else DrawOp(Bridge, Line(Point(bx1, l.cy), Point(bx2, l.cy)))
  }

  function ArmHeight(l: Layout): int
  {
    Scale(l.lh, ArmHeightRatio)
  }

  function CrownRadius(l: Layout): int
  {
    ArmHeight(l) / 2 + CrownPad
  }

  /** The left arm runs from 3% of the width to 10 px inside the left lens. */
  function LeftArmBox(l: Layout): Box
  {
    Box(Scale(l.w, LeftArmEndRatio), l.cy - ArmHeight(l) / 2,
        l.left.x - l.lw / 2 + 10, l.cy + ArmHeight(l) / 2)
  }

  /** The right arm runs from 10 px inside the right lens to 97% of the width. */
  function RightArmBox(l: Layout): Box
  {
    Box(l.right.x + l.lw / 2 - 10, l.cy - ArmHeight(l) / 2,
        Scale(l.w, RightArmEndRatio), l.cy + ArmHeight(l) / 2)
  }

  function CrownCentre(l: Layout): Point
  {
    Point(RightArmBox(l).x2 - CrownRadius(l) - CrownInset, l.cy)
  }

  /** The crown's bounding box, which `_draw_arms` both draws and returns. */
  function KnobBox(l: Layout): Box
  {
    BoxAround(CrownCentre(l), CrownRadius(l), CrownRadius(l))
  }

  /** `_draw_arms`: both arms, the crown disc and its inner ring 6 px inside it. */
  function ArmOps(l: Layout): (ops: seq<DrawOp>)
  {
    var radius := ArmHeight(l) / 2;
    var inner := CrownRadius(l) - 6;
    [DrawOp(Arms, RoundedRect(LeftArmBox(l), radius)),
     DrawOp(Arms, RoundedRect(RightArmBox(l), radius)),
     DrawOp(Crown, Ellipse(KnobBox(l))),
     DrawOp(Crown, Ellipse(BoxAround(CrownCentre(l), inner, inner)))]
  }

  /** `_draw_frame`: one rounded box around both lenses. */
  function FrameBox(l: Layout): Box
  {
    Box(l.left.x - l.lw / 2 - FrameMargin, l.cy - l.lh / 2 - FrameMargin,
        l.right.x + l.lw / 2 + FrameMargin, l.cy + l.lh / 2 + FrameMargin)
  }

  /** `_draw_tint` and `_draw_rims`: one ellipse per lens box, left lens first. */
  function LensOps(l: Layout, layer: Layer): (ops: seq<DrawOp>)
  {
    [DrawOp(layer, Ellipse(LeftLens(l))), DrawOp(layer, Ellipse(RightLens(l)))]
  }

  /** `_draw_bottom_bar`: a bar whose top is `lower_bar_h_ratio` of the height above its 90% line. */
  function BarBox(w: int, h: int, lowerBar: int): Box
  {
    var bottom := Scale(h, BarBottomRatio);
    Box(Scale(w, BarLeftRatio), bottom - Scale(h, lowerBar), Scale(w, BarRightRatio), bottom + BarOverhang)
  }

  /** The shadow rounds of `generate` outline each lens moved by 2, then 4, then 6 pixels. */
  lemma ShadowRounds(l: Layout)
    ensures var ops := ShadowOps(l, ShadowOffsets);
      forall k :: 0 <= k < 3 ==>
        && ops[2 * k] == DrawOp(Shadow, Ellipse(LeftLens(l).Shift(2 * k + 2)))
        && ops[2 * k + 1] == DrawOp(Shadow, Ellipse(RightLens(l).Shift(2 * k + 2)))
  {
    var ops := ShadowOps(l, ShadowOffsets);
    forall k | 0 <= k < 3
      ensures ops[2 * k] == DrawOp(Shadow, Ellipse(LeftLens(l).Shift(2 * k + 2)))
      ensures ops[2 * k + 1] == DrawOp(Shadow, Ellipse(RightLens(l).Shift(2 * k + 2)))
    {
      assert ShadowOffsets[k] == 2 * k + 2;
      assert (2 * k) / 2 == k && (2 * k) % 2 == 0 && (2 * k + 1) / 2 == k && (2 * k + 1) % 2 == 1;
    }
  }

  /** The draw calls after the shadow: bridge, arms and crown, frame, tint, rims, bottom bar. */
  function ComponentOps(l: Layout, p: Params): (ops: seq<DrawOp>)
    ensures |ops| == 11
    ensures forall i :: 0 <= i < 11 ==> ops[i].layer == PassOrder[6 + i]
    ensures ops[0] == BridgeOp(l, p.bridgeMin)
    ensures ops[1] == DrawOp(Arms, RoundedRect(LeftArmBox(l), ArmHeight(l) / 2))
    ensures ops[2] == DrawOp(Arms, RoundedRect(RightArmBox(l), ArmHeight(l) / 2))
    ensures ops[3] == DrawOp(Crown, Ellipse(KnobBox(l)))
    ensures ops[4] == DrawOp(Crown, Ellipse(BoxAround(CrownCentre(l), CrownRadius(l) - 6, CrownRadius(l) - 6)))
    ensures ops[5] == DrawOp(Frame, RoundedRect(FrameBox(l), FrameRadius))
    ensures ops[10] == DrawOp(BottomBar, Rect(BarBox(l.w, l.h, p.lowerBar)))
    ensures ops[6..10] == [DrawOp(Tint, Ellipse(LeftLens(l))), DrawOp(Tint, Ellipse(RightLens(l))),
                           DrawOp(Rim, Ellipse(LeftLens(l))), DrawOp(Rim, Ellipse(RightLens(l)))]
  {
    [BridgeOp(l, p.bridgeMin)]
    + ArmOps(l)
    + [DrawOp(Frame, RoundedRect(FrameBox(l), FrameRadius))]
    + LensOps(l, Tint)
    + LensOps(l, Rim)
    + [DrawOp(BottomBar, Rect(BarBox(l.w, l.h, p.lowerBar)))]
  }

  /** The draw calls for a computed layout: the shadow rounds, then the components. */
  function Draw(l: Layout, p: Params): Rendering
  {
    Rendering(ShadowOps(l, ShadowOffsets) + ComponentOps(l, p), KnobBox(l))
  }

  /** `GlassesOverlay.generate`: lays the lenses out, then draws. */
  function Generate(w: int, h: int, p: Params): (r: Rendering)
  {
    Draw(ComputeLayout(w, h, p), p)
  }
}

/**
 * What the overlay layout promises: symmetry, the bridge gap, the crown's
 * place on the right arm, the frame margin, the bottom bar, the shadow
 * offsets and the order of the passes.
 */
module OverlayProperties {
  import opened Numeric
  import opened Shapes
  import opened Overlay

  /**
   * The two lens boxes are mirror images about the centre column `w // 2`, the
   * same size, and centred on the line at 53% of the height; an odd lens width
   * loses one pixel to the halving.
   */
  lemma LensesMirrored(w: int, h: int, p: Params)
    ensures var l := ComputeLayout(w, h, p);
      && LeftLens(l).x1 + RightLens(l).x2 == 2 * (w / 2)
      && LeftLens(l).x2 + RightLens(l).x1 == 2 * (w / 2)
      && LeftLens(l).y1 == RightLens(l).y1 && LeftLens(l).y2 == RightLens(l).y2
      && LeftLens(l).y1 + LeftLens(l).y2 == 2 * Scale(h, CentreLineRatio)
      && LeftLens(l).Width() == RightLens(l).Width() == 2 * (Scale(w, p.lensW) / 2)
      && LeftLens(l).Height() == RightLens(l).Height() == 2 * (Scale(h, p.lensH) / 2)
  {
  }

  /**
   * The gap between the lenses is at least `bridge_min - 1` pixels, so with a
   * minimum bridge of two pixels or more the bridge is always the bar spanning
   * exactly that gap, and the line fallback is never drawn.
   */
  lemma BridgeSpansGap(w: int, h: int, p: Params)
    ensures var l := ComputeLayout(w, h, p);
      && BridgeGap(l) >= p.bridgeMin - 1
      && BridgeGap(l) == RightLens(l).x1 - LeftLens(l).x2
      && (p.bridgeMin >= 2 ==>
            var top := l.cy - l.lh / 8;
            BridgeOp(l, p.bridgeMin)
            == DrawOp(Bridge, Rect(Box(LeftLens(l).x2, top, RightLens(l).x1, top + Max(4, p.bridgeMin / 2)))))
  {
    var l := ComputeLayout(w, h, p);
    var e := l.ipdEff / 2;
    var half := l.lw / 2;
    assert BridgeGap(l) == 2 * e - 2 * half;
    assert 2 * e >= l.ipdEff - 1 && 2 * half <= l.lw;
  }

  /**
   * When the IPD does not exceed the lens width plus a minimum bridge of 0 or 1,
   * and a bridge of 1 meets an even lens width, the lenses touch and the line
   * fallback is drawn.
   */
  lemma LineFallbackReachable(w: int, h: int, p: Params)
    requires 0 <= p.bridgeMin <= 1 && p.ipd <= Scale(w, p.lensW) + p.bridgeMin
    requires p.bridgeMin == 0 || Scale(w, p.lensW) % 2 == 0
    ensures var l := ComputeLayout(w, h, p);
      BridgeGap(l) == 0 && BridgeOp(l, p.bridgeMin).shape.Line?
  {
    var l := ComputeLayout(w, h, p);
    assert l.ipdEff == l.lw + p.bridgeMin;
    assert BridgeGap(l) == 2 * (l.ipdEff / 2) - 2 * (l.lw / 2);
  }

  /**
   * The crown's box is a square of side twice the crown radius, centred on the
   * lens centre line, 6 px inside the right arm's outer end, and reaching 8 px
   * above and below the arm; it is the box `generate` returns.
   */
  lemma KnobOnRightArm(w: int, h: int, p: Params)
    ensures var l := ComputeLayout(w, h, p);
      var k := Generate(w, h, p).knob;
      var r := Scale(Scale(h, p.lensH), ArmHeightRatio) / 2 + CrownPad;
      && k == KnobBox(l)
      && k.Width() == 2 * r && k.Height() == 2 * r
      && k.x1 + k.x2 == 2 * (Scale(w, RightArmEndRatio) - r - CrownInset)
      && k.y1 + k.y2 == 2 * Scale(h, CentreLineRatio)
      && k.x2 == RightArmBox(l).x2 - CrownInset
      && k.y1 == RightArmBox(l).y1 - CrownPad && k.y2 == RightArmBox(l).y2 + CrownPad
  {
  }

  /**
   * The frame encloses both lens boxes, and stands exactly 20 px off the
   * outer side of each lens and off the top and bottom of both.
   */
  lemma FrameEnclosesLenses(w: int, h: int, p: Params)
    requires p.ipd >= 0
    ensures var l := ComputeLayout(w, h, p);
      var f := FrameBox(l);
      && f.Encloses(LeftLens(l)) && f.Encloses(RightLens(l))
      && LeftLens(l).x1 - f.x1 == FrameMargin && f.x2 - RightLens(l).x2 == FrameMargin
      && LeftLens(l).y1 - f.y1 == FrameMargin && f.y2 - LeftLens(l).y2 == FrameMargin
      && RightLens(l).y1 - f.y1 == FrameMargin && f.y2 - RightLens(l).y2 == FrameMargin
  {
  }

  /**
   * The bottom bar is centred on the canvas to within half a pixel, is
   * `lower_bar_h_ratio` of the height plus 8 px tall, and stays on the canvas
   * when the ratio is at most 0.90 and the canvas at least 80 px tall.
   */
  lemma BottomBarPlacement(w: int, h: int, p: Params)
    requires w >= 0 && h >= 0
    ensures var b := BarBox(w, h, p.lowerBar);
      && w - 1 <= b.x1 + b.x2 <= w
      && b.x1 <= b.x2
      && b.Height() == Scale(h, p.lowerBar) + BarOverhang
      && (0 <= p.lowerBar <= BarBottomRatio ==> 0 <= b.y1 <= b.y2)
      && (h >= 80 ==> b.y2 <= h)
  {
    ScaleComplement(w, BarLeftRatio);
    ScaleGrowsWithRatio(w, BarLeftRatio, BarRightRatio);
    ScaleFloor(h, BarBottomRatio);
    if 0 <= p.lowerBar <= BarBottomRatio {
      ScaleGrowsWithRatio(h, p.lowerBar, BarBottomRatio);
      ScaleFloor(h, p.lowerBar);
    }
  }

  /** The fixed pass order never steps back between neighbours. */
  lemma PassOrderNeighbours()
    ensures forall i :: 0 < i < |PassOrder| ==> Rank(PassOrder[i - 1]) <= Rank(PassOrder[i])
  {
  }

  /** Pass ranks that never decrease between neighbours never decrease at all. */
  lemma {:induction false} NeighbourOrderSuffices(ops: seq<DrawOp>)
    requires forall i :: 0 < i < |ops| ==> Rank(ops[i - 1].layer) <= Rank(ops[i].layer)
    ensures InLayerOrder(ops)
  {
    if |ops| > 1 {
      var init := ops[..|ops| - 1];
      NeighbourOrderSuffices(init);
      forall i, j | 0 <= i < j < |ops|
        ensures Rank(ops[i].layer) <= Rank(ops[j].layer)
      {
        if j < |ops| - 1 {
          assert ops[i] == init[i] && ops[j] == init[j];
        } else if i < j - 1 {
          assert ops[i] == init[i] && ops[j - 1] == init[j - 1];
        }
      }
    }
  }

  /** Calls whose passes follow the fixed pass order are in pass order and cover every pass. */
  lemma FollowingPassOrder(ops: seq<DrawOp>)
    requires LayersOf(ops) == PassOrder
    ensures InLayerOrder(ops)
    ensures forall layer: Layer :: layer in LayersOf(ops)
  {
    PassOrderNeighbours();
    forall i | 0 < i < |ops|
      ensures Rank(ops[i - 1].layer) <= Rank(ops[i].layer)
    {
      assert ops[i - 1].layer == PassOrder[i - 1] && ops[i].layer == PassOrder[i];
    }
    NeighbourOrderSuffices(ops);
    forall layer: Layer
      ensures layer in LayersOf(ops)
    {
      var at := match layer
        case Shadow => 0 case Bridge => 6 case Arms => 7 case Crown => 9
        case Frame => 11 case Tint => 12 case Rim => 14 case BottomBar => 16;
      assert PassOrder[at] == layer;
    }
  }

  /** Six shadow calls followed by calls on the remaining passes in order follow the whole pass order. */
  lemma ShadowsThenComponents(shadows: seq<DrawOp>, components: seq<DrawOp>)
    requires |shadows| == 6 && AllOn(shadows, Shadow)
    requires |components| == 11 && forall i :: 0 <= i < 11 ==> components[i].layer == PassOrder[6 + i]
    ensures LayersOf(shadows + components) == PassOrder
  {
    var ops := shadows + components;
    forall i | 0 <= i < |ops|
      ensures ops[i].layer == PassOrder[i]
    {
      if i < 6 {
        assert ops[i] == shadows[i];
      } else {
        assert ops[i] == components[i - 6];
      }
    }
  }

  /** The calls of `generate` come pass by pass in the fixed pass order. */
  lemma DrawLayers(l: Layout, p: Params)
    ensures LayersOf(Draw(l, p).ops) == PassOrder
  {
    ShadowsThenComponents(ShadowOps(l, ShadowOffsets), ComponentOps(l, p));
  }

  /**
   * The passes come in the fixed order shadow, bridge, arms, crown, frame,
   * tint, rims, bottom bar; every pass draws something; and the crown disc
   * drawn is the box returned.
   */
  lemma PassesInOrder(l: Layout, p: Params)
    ensures var r := Draw(l, p);
      && InLayerOrder(r.ops)
      && (forall layer: Layer :: layer in LayersOf(r.ops))
      && r.ops[9] == DrawOp(Crown, Ellipse(r.knob))
  {
    var r := Draw(l, p);
    DrawLayers(l, p);
    FollowingPassOrder(r.ops);
    assert r.ops[9] == ComponentOps(l, p)[3];
  }

  /** The first six calls outline the left and the right lens moved diagonally by 2, then 4, then 6 pixels. */
  lemma ShadowsTrailLenses(l: Layout, p: Params)
    ensures var ops := Draw(l, p).ops;
      forall k :: 0 <= k < 3 ==>
        && ops[2 * k] == DrawOp(Shadow, Ellipse(LeftLens(l).Shift(2 * k + 2)))
        && ops[2 * k + 1] == DrawOp(Shadow, Ellipse(RightLens(l).Shift(2 * k + 2)))
  {
    var shadows := ShadowOps(l, ShadowOffsets);
    var ops := Draw(l, p).ops;
    assert ops[..6] == shadows;
    ShadowRounds(l);
    assert forall i :: 0 <= i < 6 ==> ops[i] == shadows[i];
  }

  /** The last passes draw the rims on the lens boxes, after the tint on the same boxes. */
  lemma RimsOnLenses(l: Layout, p: Params)
    ensures var ops := Draw(l, p).ops;
      && ops[12] == DrawOp(Tint, Ellipse(LeftLens(l))) && ops[13] == DrawOp(Tint, Ellipse(RightLens(l)))
      && ops[14] == DrawOp(Rim, Ellipse(LeftLens(l))) && ops[15] == DrawOp(Rim, Ellipse(RightLens(l)))
  {
    var shadows, components := ShadowOps(l, ShadowOffsets), ComponentOps(l, p);
    var ops := Draw(l, p).ops;
    assert ops[12..16] == components[6..10];
  }

  /**
   * Widening the lenses widens the glasses: on a canvas at least 200 px wide,
   * a larger lens-width ratio gives a strictly larger span from the left
   * lens's left edge to the right lens's right edge, whether or not the
   * minimum bridge pushes the lenses apart.
   */
  lemma SpanGrowsWithLensWidth(w: int, h: int, p: Params, wider: int)
    requires w >= 200 && 0 <= p.lensW < wider
    ensures var l1 := ComputeLayout(w, h, p);
      var l2 := ComputeLayout(w, h, p.(lensW := wider));
      RightLens(l1).x2 - LeftLens(l1).x1 < RightLens(l2).x2 - LeftLens(l2).x1
  {
    var l1 := ComputeLayout(w, h, p);
    var l2 := ComputeLayout(w, h, p.(lensW := wider));
    ScaleGainsTwoPixels(w, p.lensW, wider);
    assert l2.lw >= l1.lw + 2;
    assert l2.lw / 2 > l1.lw / 2;
    assert l2.ipdEff >= l1.ipdEff;
    assert l2.ipdEff / 2 >= l1.ipdEff / 2;
  }
}

=== FILE: shapes.dfy ===
/**
 * Points, axis-aligned boxes and canvas items.  A box is the `[x1, y1, x2, y2]`
 * list both Pillow and the Tk canvas take: closed on every side, with
 * `x1 <= x2` and `y1 <= y2` whenever it is well formed.
 */
module Shapes {

  datatype Point = Point(x: int, y: int)

  datatype Box = Box(x1: int, y1: int, x2: int, y2: int)
  {
    function Width(): int { x2 - x1 }

    function Height(): int { y2 - y1 }

    predicate WellFormed() { x1 <= x2 && y1 <= y2 }

    /** The closed-rectangle test of a click handler: `x1 <= x <= x2 and y1 <= y <= y2`. */
    predicate Contains(p: Point)
    {
      x1 <= p.x <= x2 && y1 <= p.y <= y2
    }

    predicate Encloses(b: Box)
    {
      x1 <= b.x1 && b.x2 <= x2 && y1 <= b.y1 && b.y2 <= y2
    }

    /** The same box moved `d` pixels right and `d` pixels down. */
    function Shift(d: int): Box
    {
      Box(x1 + d, y1 + d, x2 + d, y2 + d)
    }
  }

  /** The box reaching `rx` pixels left and right of `c` and `ry` pixels above and below it. */
  function BoxAround(c: Point, rx: int, ry: int): (b: Box)
    ensures b.Width() == 2 * rx && b.Height() == 2 * ry
    ensures b.x1 + b.x2 == 2 * c.x && b.y1 + b.y2 == 2 * c.y
  {
    Box(c.x - rx, c.y - ry, c.x + rx, c.y + ry)
  }

  /**
   * An item on the Tk canvas, kept by its coordinates and text rather than by
   * the integer id the canvas hands out.
   */
  datatype Item =
    | Oval(box: Box)
    | Polygon(points: seq<Point>)
    | Text(at: Point, text: string)
    | Rectangle(box: Box)
}

=== FILE: wrappers.dfy ===
/** The optional value the Python code expresses with `None`. */
module Wrappers {

  datatype Option<+T> = None | Some(value: T)
}
